=== FILE: README.md ===
# Gallery media-type classifier

A Dafny model of `MediaMimeType`, the enumeration the Silverpeas gallery uses
to classify uploaded media. It has eight media kinds and an `ERROR` sentinel:
photos (BMP, GIF, PNG, JPG, TIFF), videos (MP4, FLV) and sounds (MP3).

The model covers the following:

- Each kind caches one MIME string when the enumeration is built. The string is
  what the platform's file-type table gives for `"file." + lower-cased name`.
- `FromMimeType` maps a possibly-null MIME string to a kind. An undefined string
  gives `ERROR`. The legacy `image/pjpeg` gives `JPG`. Any other string gives the
  first valid kind, in declaration order, whose cached string equals it exactly.
  `ERROR` is the result when no kind matches.
- `FromFile` maps a possibly-null file to a kind through the table.
- The group-membership tests and the readable, previewable and IPTC predicates.

Two things come from the host platform, and the model takes both as parameters
in the `Platform` datatype:

- `getMimeType` is the extension-to-MIME table (`FileUtil.getMimeType`).
- `isDefined` is the "is defined" string test (`StringUtil.isDefined`).

Neither is given a body. Each property states as a hypothesis what it needs
from them. For example, the round trip needs distinct, defined cached strings,
and no kind other than JPG may cache `image/pjpeg`.

A null Java string is `None` of `Option<string>`, and a file is its path.

Files:

- `wrappers.dfy`: `Option`.
- `media_mime_type.dfy`: module `MediaTypes`, holding the enumeration, groups,
  cache, lookup and predicates.
- `media_mime_type_properties.dfy`: module `MediaTypeProperties`, holding the
  lemmas.

The `image/pjpeg` override sits inside the `isDefined` test (lines 73-78 of
`MediaMimeType.java`), so `PjpegIsJpg` requires the platform to call that
string defined. Like the Java enum, `FromMimeType` returns the `ERROR`
variant; only the internal scans `FirstMatch` and `LookupValid` return
`Option`.

## Model

| member | source | states |
|---|---|---|
| MediaTypeProperties.CacheKeyNamesKind | gallery/gallery-ejb/src/main/java/com/silverpeas/gallery/constant/MediaMimeType.java:54-56 | the file name a kind looks up is `file.` followed by a string with no upper-case letter that upper-cases back to the kind's declared name |
| MediaTypes.IsSupportedPhotoType | gallery/gallery-ejb/src/main/java/com/silverpeas/gallery/constant/MediaMimeType.java:100-102 | a kind that passes the photo test is valid and is neither a video nor a sound kind |
| MediaTypes.IsSupportedVideoType | gallery/gallery-ejb/src/main/java/com/silverpeas/gallery/constant/MediaMimeType.java:108-110 | a kind that passes the video test is valid and is neither a photo nor a sound kind |
| MediaTypes.IsSupportedSoundType | gallery/gallery-ejb/src/main/java/com/silverpeas/gallery/constant/MediaMimeType.java:116-118 | a kind that passes the sound test is valid and is neither a photo nor a video kind |
| MediaTypes.IsReadablePhoto | gallery/gallery-ejb/src/main/java/com/silverpeas/gallery/constant/MediaMimeType.java:125-127 | every readable kind is a supported photo kind |
| MediaTypes.IsPreviewablePhoto | gallery/gallery-ejb/src/main/java/com/silverpeas/gallery/constant/MediaMimeType.java:133-135 | every previewable kind is a supported photo kind |
| MediaTypes.IsIPTCCompliant | gallery/gallery-ejb/src/main/java/com/silverpeas/gallery/constant/MediaMimeType.java:141-143 | every IPTC-compliant kind is a supported photo kind |
| MediaTypes.FirstMatch | gallery/gallery-ejb/src/main/java/com/silverpeas/gallery/constant/MediaMimeType.java:79-83 | the scan finds nothing exactly when no listed kind caches the string; otherwise it returns a listed kind caching exactly that string, and no earlier-listed kind caches it |
| MediaTypes.LookupValid | gallery/gallery-ejb/src/main/java/com/silverpeas/gallery/constant/MediaMimeType.java:46-83 | scanning the valid kinds finds nothing exactly when no non-ERROR kind caches the string; a found kind is valid, caches the string, and every kind declared before it does not |
| MediaTypes.FromMimeType | gallery/gallery-ejb/src/main/java/com/silverpeas/gallery/constant/MediaMimeType.java:72-86 | an undefined input gives ERROR; a defined `image/pjpeg` gives JPG; a non-ERROR result comes from a defined input that is `image/pjpeg` or the result's cached string; for other defined inputs the result is ERROR exactly when no valid kind caches the input, and otherwise the first such kind in declaration order |
| MediaTypes.FromFile | gallery/gallery-ejb/src/main/java/com/silverpeas/gallery/constant/MediaMimeType.java:63-65 | a null file gives ERROR; for a non-null file, with `m` the table's string for its path: an undefined `m` gives ERROR, a defined `image/pjpeg` gives JPG, and any other defined `m` gives ERROR exactly when no valid kind caches `m`, otherwise the first valid kind in declaration order that caches it |
| MediaTypeProperties.NullIsError | gallery/gallery-ejb/src/main/java/com/silverpeas/gallery/constant/MediaMimeType.java:72-85 | a null MIME string gives ERROR for every platform, whatever `isDefined` says of null |
| MediaTypeProperties.UndefinedIsError | gallery/gallery-ejb/src/main/java/com/silverpeas/gallery/constant/MediaMimeType.java:72-85 | any string the platform calls undefined gives ERROR; the empty string does so only when `isDefined` rejects it |
| MediaTypeProperties.NullFileIsError | gallery/gallery-ejb/src/main/java/com/silverpeas/gallery/constant/MediaMimeType.java:63-65 | a null file gives ERROR |
| MediaTypeProperties.PjpegIsJpg | gallery/gallery-ejb/src/main/java/com/silverpeas/gallery/constant/MediaMimeType.java:76-78 | `image/pjpeg`, once defined, gives JPG whatever the table holds |
| MediaTypeProperties.PjpegCacheShadowed | gallery/gallery-ejb/src/main/java/com/silverpeas/gallery/constant/MediaMimeType.java:76-81 | a kind whose cached string is `image/pjpeg` has that string classified as JPG by the override, so any kind other than JPG loses its round trip |
| MediaTypeProperties.RoundTrip | gallery/gallery-ejb/src/main/java/com/silverpeas/gallery/constant/MediaMimeType.java:52-94 | when valid kinds cache distinct, defined strings and no kind other than JPG caches `image/pjpeg`, looking up a valid kind's cached string gives that kind |
| MediaTypeProperties.ClassifiedStringIsCached | gallery/gallery-ejb/src/main/java/com/silverpeas/gallery/constant/MediaMimeType.java:79-83 | a non-pjpeg string that does not give ERROR gives a valid kind whose cached string is exactly that string |
| MediaTypeProperties.EarlierKindWins | gallery/gallery-ejb/src/main/java/com/silverpeas/gallery/constant/MediaMimeType.java:79-83 | when two valid kinds cache the same defined string other than `image/pjpeg`, that string gives a kind declared no later than the earlier one, never the later one |
| MediaTypeProperties.ErrorNeverMatched | gallery/gallery-ejb/src/main/java/com/silverpeas/gallery/constant/MediaMimeType.java:46-85 | the scan over the valid kinds never yields ERROR for any string, because the sentinel is left out of the scanned list; so ERROR's cached string, when it is not `image/pjpeg` and no valid kind shares it, gives ERROR through the no-match fall-through |
| MediaTypeProperties.FromFileRoundTrip | gallery/gallery-ejb/src/main/java/com/silverpeas/gallery/constant/MediaMimeType.java:54-65 | under the round trip's conditions, a file whose path the table maps to a valid kind's cached string gives that kind |
| MediaTypeProperties.CacheKeyFileIsKind | gallery/gallery-ejb/src/main/java/com/silverpeas/gallery/constant/MediaMimeType.java:54-65 | under the round trip's conditions, the file name a kind's cache is built from gives that kind |
| MediaTypeProperties.CacheKeys | gallery/gallery-ejb/src/main/java/com/silverpeas/gallery/constant/MediaMimeType.java:54-56 | the kinds look up `file.bmp`, `file.gif`, `file.png`, `file.jpg`, `file.tiff`, `file.mp4`, `file.flv`, `file.mp3` and `file.error` |
| MediaTypeProperties.CacheKeysDistinct | gallery/gallery-ejb/src/main/java/com/silverpeas/gallery/constant/MediaMimeType.java:37-56 | distinct kinds look up distinct file names, since each file name upper-cases back to its kind's declared name |
| MediaTypeProperties.InjectiveTableSuffices | gallery/gallery-ejb/src/main/java/com/silverpeas/gallery/constant/MediaMimeType.java:54-56 | a table that gives the nine cache file names distinct strings, defined for every valid kind and equal to `image/pjpeg` for none but JPG, meets the round trip's conditions, because distinct kinds look up distinct file names |
| MediaTypeProperties.AllValidsInDeclarationOrder | gallery/gallery-ejb/src/main/java/com/silverpeas/gallery/constant/MediaMimeType.java:36-50 | the scanned list holds every kind but ERROR, once each, in declaration order; it is the full list without its last element, ERROR |
| MediaTypeProperties.GroupsPartitionValids | gallery/gallery-ejb/src/main/java/com/silverpeas/gallery/constant/MediaMimeType.java:37-50 | photos, videos and sounds are pairwise disjoint, ERROR is in none, and their union is the valid kinds |
| MediaTypeProperties.ExactlyOneGroup | gallery/gallery-ejb/src/main/java/com/silverpeas/gallery/constant/MediaMimeType.java:100-118 | every valid kind passes exactly one of the photo, video and sound tests, and ERROR passes none |
| MediaTypeProperties.ReadablePhotosStrictlyInPhotos | gallery/gallery-ejb/src/main/java/com/silverpeas/gallery/constant/MediaMimeType.java:125-127 | every readable kind is a photo, and TIFF is the only photo that is not readable |
| MediaTypeProperties.PreviewableIsReadable | gallery/gallery-ejb/src/main/java/com/silverpeas/gallery/constant/MediaMimeType.java:133-135 | a kind is previewable exactly when it is readable |
| MediaTypeProperties.IptcAgainstReadable | gallery/gallery-ejb/src/main/java/com/silverpeas/gallery/constant/MediaMimeType.java:141-143 | every IPTC-compliant kind is a photo; TIFF is the only compliant kind that is not readable, and PNG and BMP are the only readable kinds that are not compliant |

## Left out

- `FileUtil.getMimeType` and `StringUtil.isDefined` are not part of this model. They are the abstract `Platform` fields, and no table contents or trimming rules are assumed.
- A null result from the platform table: the model's table always returns a string. A null cached string would make the scan's `equals` call throw.
- `java.io.File`: a file is only its path, and `File.getPath` is that path.
- `String.toLowerCase` is modelled as ASCII lower-casing. This assumes the default locale is not Turkish or Azerbaijani. In those locales `I` lower-cases to a dotless `ı`, so GIF and TIFF would look up `file.gıf` and `file.tıff`. `CacheKeyNamesKind`, `CacheKeys`, `CacheKeysDistinct` and `CacheKeyFileIsKind` hold only under this assumption.
- The one-time static initialisation is the pure function `MimeTypeOf`, because the cache never changes after it is built.
- The model covers only `MediaMimeType`. It leaves out `GalleryInWysiwygRouter` (servlet routing and byte-stream copying), `DefaultSuggestionBoxService` (a transactional facade over repository, comment, attachment, subscription and rating services), `CategoryJpaManager` (a single named JPA query) and `OrganisationControllerMockWrapper` (a test mock that delegates to Mockito). All four are glue over platform services.

=== FILE: media_mime_type.dfy ===
/**
  The gallery's media-type classifier: a closed enumeration of the media
  kinds the gallery handles, the MIME string each kind caches from the
  platform's file-type table, the lookup from a MIME string (or a file) back
  to a kind, and the capability predicates built on top of it.

  The platform's file-type table and its "is defined" string test are not
  part of this model; they are handed in as the two fields of a `Platform`.
 */
module MediaTypes {
  import opened Wrappers

  /** The eight supported media kinds, in declaration order, then the sentinel. */
  datatype MediaMimeType = BMP | GIF | PNG | JPG | TIFF | MP4 | FLV | MP3 | ERROR

  /**
    What the classifier takes from its host platform:
    - `getMimeType`: the extension-to-MIME table, applied to a file name or path;
    - `isDefined`: the platform's test that a (possibly null) string is defined.
   */
  datatype Platform = Platform(getMimeType: string -> string, isDefined: Option<string> -> bool)

  /** A file, seen only through its path. */
  datatype File = File(path: string)

  /** The legacy JPEG content type some old upload clients send. */
  const Pjpeg: string := "image/pjpeg"

  const Photos: set<MediaMimeType> := {BMP, GIF, PNG, JPG, TIFF}
  const Videos: set<MediaMimeType> := {MP4, FLV}
  const Sounds: set<MediaMimeType> := {MP3}

  /** Every variant, in declaration order (the order an enum set iterates in). */
  const Values: seq<MediaMimeType> := [BMP, GIF, PNG, JPG, TIFF, MP4, FLV, MP3, ERROR]

  /** Every variant but the sentinel, in declaration order. */
  const AllValids: seq<MediaMimeType> := [BMP, GIF, PNG, JPG, TIFF, MP4, FLV, MP3]

  predicate IsValid(m: MediaMimeType) {
    m != ERROR
  }

  /** Position of a variant in the declaration. */
  function Ordinal(m: MediaMimeType): nat {
    match m
    case BMP => 0
    case GIF => 1
    case PNG => 2
    case JPG => 3
    case TIFF => 4
    case MP4 => 5
    case FLV => 6
    case MP3 => 7
    case ERROR => 8
  }

  /** The constant's declared name. */
  function Name(m: MediaMimeType): string {
    match m
    case BMP => "BMP"
    case GIF => "GIF"
    case PNG => "PNG"
    case JPG => "JPG"
    case TIFF => "TIFF"
    case MP4 => "MP4"
    case FLV => "FLV"
    case MP3 => "MP3"
    case ERROR => "ERROR"
  }

  function LowerChar(c: char): char {
    if 'A' <= c <= 'Z' then (c as int - 'A' as int + 'a' as int) as char else c
  }

  /** ASCII lower-casing, which is all the constants' names need. */
  function ToLower(s: string): string {
    seq(|s|, i requires 0 <= i < |s| => LowerChar(s[i]))
  }

  function UpperChar(c: char): char {
    if 'a' <= c <= 'z' then (c as int - 'a' as int + 'A' as int) as char else c
  }

  /** ASCII upper-casing, used to state what lower-casing a name keeps. */
  function ToUpper(s: string): string {
    seq(|s|, i requires 0 <= i < |s| => UpperChar(s[i]))
  }

  /** The file name whose MIME type a variant caches: "file." and its lower-cased name. */
  function CacheKey(m: MediaMimeType): string {
    "file." + ToLower(Name(m))
  }

  /** Upper-casing undoes lower-casing on a string with no lower-case letters. */
  lemma UpperUndoesLower(s: string)
    requires forall i :: 0 <= i < |s| ==> !('a' <= s[i] <= 'z')
    ensures ToUpper(ToLower(s)) == s
    ensures forall i :: 0 <= i < |s| ==> !('A' <= ToLower(s)[i] <= 'Z')
  {
  }

  /** The MIME string a variant caches when the enumeration is built. */
  function MimeTypeOf(p: Platform, m: MediaMimeType): string {
    p.getMimeType(CacheKey(m))
  }

  /**
    The scan over a list of variants: the first one, in list order, whose
    cached MIME string equals `s`, or None when none does. A null `s`
    equals no cached string.
   */
  function FirstMatch(p: Platform, vs: seq<MediaMimeType>, s: Option<string>): (r: Option<MediaMimeType>)
    ensures r.None? <==> forall i :: 0 <= i < |vs| ==> Some(MimeTypeOf(p, vs[i])) != s
    ensures r.Some? ==> exists i :: 0 <= i < |vs| && vs[i] == r.value
                                  && Some(MimeTypeOf(p, vs[i])) == s
                                  && forall j :: 0 <= j < i ==> Some(MimeTypeOf(p, vs[j])) != s
    decreases |vs|
  {
    if |vs| == 0 then None
    else if Some(MimeTypeOf(p, vs[0])) == s then Some(vs[0])
    else
      var r := FirstMatch(p, vs[1..], s);
      assert forall i :: 1 <= i < |vs| ==> vs[i] == vs[1..][i - 1];
      r
  }

  /**
    The scan over every valid kind: the first one in declaration order
    whose cached MIME string equals `s`, or None when none does.
   */
  function LookupValid(p: Platform, s: Option<string>): (r: Option<MediaMimeType>)
    ensures r.None? <==> forall v :: IsValid(v) ==> Some(MimeTypeOf(p, v)) != s
    ensures r.Some? ==> IsValid(r.value) && Some(MimeTypeOf(p, r.value)) == s
    ensures r.Some? ==> forall v :: IsValid(v) && Ordinal(v) < Ordinal(r.value) ==> Some(MimeTypeOf(p, v)) != s
  {
    AllValidsIndexedByOrdinal();
    FirstMatch(p, AllValids, s)
  }

  /** The valid list holds exactly the valid kinds, each at its ordinal. */
  lemma AllValidsIndexedByOrdinal()
    ensures forall i :: 0 <= i < |AllValids| ==> Ordinal(AllValids[i]) == i && IsValid(AllValids[i])
    ensures forall v :: IsValid(v) ==> Ordinal(v) < |AllValids| && AllValids[Ordinal(v)] == v
  {
  }

  /**
    The kind named by a (possibly null) MIME string. An undefined string gives
    ERROR; the legacy "image/pjpeg" gives JPG before any lookup; otherwise the
    first valid kind, in declaration order, caching exactly that string, and
    ERROR when there is none.
   */
  function FromMimeType(p: Platform, s: Option<string>): (r: MediaMimeType)
    ensures !p.isDefined(s) ==> r == ERROR
    ensures p.isDefined(s) && s == Some(Pjpeg) ==> r == JPG
    ensures r != ERROR ==> p.isDefined(s) && (s == Some(Pjpeg) || Some(MimeTypeOf(p, r)) == s)
    ensures p.isDefined(s) && s != Some(Pjpeg) ==>
              (r == ERROR <==> forall v :: IsValid(v) ==> Some(MimeTypeOf(p, v)) != s)
    ensures p.isDefined(s) && s != Some(Pjpeg) && r != ERROR ==>
              forall v :: IsValid(v) && Ordinal(v) < Ordinal(r) ==> Some(MimeTypeOf(p, v)) != s
  {
    if !p.isDefined(s) then ERROR
    else if s == Some(Pjpeg) then JPG
    else match LookupValid(p, s)
      case Some(m) => m
      case None => ERROR
  }

  /**
    The kind of a (possibly null) file: a null file gives ERROR, any other
    file the kind of the MIME string the platform gives its path.
   */
  function FromFile(p: Platform, f: Option<File>): (r: MediaMimeType)
    ensures f.None? ==> r == ERROR
    ensures f.Some? && !p.isDefined(Some(p.getMimeType(f.value.path))) ==> r == ERROR
    ensures f.Some? && p.isDefined(Some(p.getMimeType(f.value.path))) && p.getMimeType(f.value.path) == Pjpeg ==> r == JPG
    ensures f.Some? && p.isDefined(Some(p.getMimeType(f.value.path))) && p.getMimeType(f.value.path) != Pjpeg ==>
              (r == ERROR <==> forall v :: IsValid(v) ==> MimeTypeOf(p, v) != p.getMimeType(f.value.path))
    ensures f.Some? && p.getMimeType(f.value.path) != Pjpeg && r != ERROR ==>
              && IsValid(r) && MimeTypeOf(p, r) == p.getMimeType(f.value.path)
              && forall v :: IsValid(v) && Ordinal(v) < Ordinal(r) ==> MimeTypeOf(p, v) != p.getMimeType(f.value.path)
  {
    FromMimeType(p, if f.Some? then Some(p.getMimeType(f.value.path)) else None)
  }

  function IsSupportedPhotoType(m: MediaMimeType): (b: bool)
    ensures b ==> IsValid(m) && m !in Videos && m !in Sounds
  {
    m in Photos
  }

  function IsSupportedVideoType(m: MediaMimeType): (b: bool)
    ensures b ==> IsValid(m) && m !in Photos && m !in Sounds
  {
    m in Videos
  }

  function IsSupportedSoundType(m: MediaMimeType): (b: bool)
    ensures b ==> IsValid(m) && m !in Photos && m !in Videos
  {
    m in Sounds
  }

  /** Photo kinds the platform's image library can decode. */
  function IsReadablePhoto(m: MediaMimeType): (b: bool)
    ensures b ==> IsSupportedPhotoType(m)
  {
    m == GIF || m == JPG || m == PNG || m == BMP
  }

  /** Photo kinds the gallery can make a preview of. */
  function IsPreviewablePhoto(m: MediaMimeType): (b: bool)
    ensures b ==> IsSupportedPhotoType(m)
  {
    IsReadablePhoto(m)
  }

  /** Kinds whose IPTC metadata can be read. */
  function IsIPTCCompliant(m: MediaMimeType): (b: bool)
    ensures b ==> IsSupportedPhotoType(m)
  {
    m == GIF || m == JPG || m == TIFF
  }
}

=== FILE: media_mime_type_properties.dfy ===
/**
  Properties of the gallery's media-type classifier: how the MIME lookup
  treats null, undefined and legacy strings, when it inverts the cached MIME
  strings, and how the capability groups and predicates relate.
 */
module MediaTypeProperties {
  import opened Wrappers
  import opened MediaTypes

  /**
    What the round trip needs of the platform: every valid kind caches a
    defined MIME string, no two valid kinds cache the same one, and none but
    JPG caches the legacy JPEG string.
   */
  ghost predicate DistinctDefinedMimeTypes(p: Platform) {
    && (forall v, w :: IsValid(v) && IsValid(w) && MimeTypeOf(p, v) == MimeTypeOf(p, w) ==> v == w)
    && (forall v :: IsValid(v) ==> p.isDefined(Some(MimeTypeOf(p, v))))
    && (forall v :: IsValid(v) && v != JPG ==> MimeTypeOf(p, v) != Pjpeg)
  }

  /** A null string classifies as ERROR, whatever the platform's tests say. */
  lemma NullIsError(p: Platform)
    ensures FromMimeType(p, None) == ERROR
  {
  }

  /**
    A string the platform calls undefined classifies as ERROR. The empty
    string does so only when the platform's test rejects it.
   */
  lemma UndefinedIsError(p: Platform, s: string)
    requires !p.isDefined(Some(s))
    ensures FromMimeType(p, Some(s)) == ERROR
  {
  }

  /** A null file classifies as ERROR. */
  lemma NullFileIsError(p: Platform)
    ensures FromFile(p, None) == ERROR
  {
  }

  /**
    The legacy JPEG string gives JPG whatever the table holds, even when
    another kind caches that very string or JPG caches a different one.
   */
  lemma PjpegIsJpg(p: Platform)
    requires p.isDefined(Some(Pjpeg))
    ensures FromMimeType(p, Some(Pjpeg)) == JPG
  {
  }

  /** A kind's cached MIME string classifies back to that kind. */
  lemma RoundTrip(p: Platform, v: MediaMimeType)
    requires DistinctDefinedMimeTypes(p)
    requires IsValid(v)
    ensures FromMimeType(p, Some(MimeTypeOf(p, v))) == v
  {
  }

  /** The kind a MIME string classifies as (other than ERROR) is one whose cached string it is. */
  lemma ClassifiedStringIsCached(p: Platform, s: string)
    ensures s != Pjpeg && FromMimeType(p, Some(s)) != ERROR ==>
              IsValid(FromMimeType(p, Some(s))) && MimeTypeOf(p, FromMimeType(p, Some(s))) == s
  {
  }

  /**
    When two valid kinds cache the same MIME string, the string classifies
    as the one declared first: the round trip fails for the later one.
   */
  lemma EarlierKindWins(p: Platform, v: MediaMimeType, w: MediaMimeType)
    requires IsValid(v) && IsValid(w) && Ordinal(v) < Ordinal(w)
    requires MimeTypeOf(p, v) == MimeTypeOf(p, w)
    requires p.isDefined(Some(MimeTypeOf(p, w))) && MimeTypeOf(p, w) != Pjpeg
    ensures FromMimeType(p, Some(MimeTypeOf(p, w))) != w
    ensures Ordinal(FromMimeType(p, Some(MimeTypeOf(p, w)))) <= Ordinal(v)
  {
  }

  /** A kind caching the legacy JPEG string classifies its own string as JPG. */
  lemma PjpegCacheShadowed(p: Platform, v: MediaMimeType)
    requires MimeTypeOf(p, v) == Pjpeg && p.isDefined(Some(Pjpeg))
    ensures FromMimeType(p, Some(MimeTypeOf(p, v))) == JPG
  {
  }

  /**
    The scan over the valid kinds never yields ERROR, whatever string is
    looked up. So ERROR's own cached string, when it is not the legacy JPEG
    string and no valid kind shares it, classifies as ERROR only because
    nothing matched.
   */
  lemma ErrorNeverMatched(p: Platform, s: Option<string>)
    ensures LookupValid(p, s) != Some(ERROR)
    ensures && s == Some(MimeTypeOf(p, ERROR)) && MimeTypeOf(p, ERROR) != Pjpeg
            && (forall v :: IsValid(v) ==> MimeTypeOf(p, v) != MimeTypeOf(p, ERROR))
            ==> FromMimeType(p, s) == ERROR
  {
  }

  /** A file whose path the table maps to a kind's cached MIME string classifies as that kind. */
  lemma FromFileRoundTrip(p: Platform, path: string, v: MediaMimeType)
    requires DistinctDefinedMimeTypes(p)
    requires IsValid(v) && p.getMimeType(path) == MimeTypeOf(p, v)
    ensures FromFile(p, Some(File(path))) == v
  {
    RoundTrip(p, v);
  }

  /** In particular the file name a kind's cache is built from classifies as that kind. */
  lemma CacheKeyFileIsKind(p: Platform, v: MediaMimeType)
    requires DistinctDefinedMimeTypes(p)
    requires IsValid(v)
    ensures FromFile(p, Some(File(CacheKey(v)))) == v
  {
    FromFileRoundTrip(p, CacheKey(v), v);
  }

  /** The file names the kinds cache their MIME strings from are "file.bmp", ..., "file.error". */
  lemma CacheKeys(m: MediaMimeType)
    ensures CacheKey(m) == "file." + match m
      case BMP => "bmp"
      case GIF => "gif"
      case PNG => "png"
      case JPG => "jpg"
      case TIFF => "tiff"
      case MP4 => "mp4"
      case FLV => "flv"
      case MP3 => "mp3"
      case ERROR => "error"
  {
    match m
    case BMP => CacheKeyIs(m, "bmp");
    case GIF => CacheKeyIs(m, "gif");
    case PNG => CacheKeyIs(m, "png");
    case JPG => CacheKeyIs(m, "jpg");
    case TIFF => CacheKeyIs(m, "tiff");
    case MP4 => CacheKeyIs(m, "mp4");
    case FLV => CacheKeyIs(m, "flv");
    case MP3 => CacheKeyIs(m, "mp3");
    case ERROR => CacheKeyIs(m, "error");
  }

  lemma CacheKeyIs(m: MediaMimeType, lower: string)
    requires |lower| == |Name(m)|
    requires forall i :: 0 <= i < |lower| ==> lower[i] == LowerChar(Name(m)[i])
    ensures CacheKey(m) == "file." + lower
  {
    assert ToLower(Name(m)) == lower;
  }

  /**
    A kind's file name is "file." followed by a name with no upper-case
    letter that upper-cases back to the kind's declared name.
   */
  lemma CacheKeyNamesKind(m: MediaMimeType)
    ensures |CacheKey(m)| > 5 && CacheKey(m)[..5] == "file."
    ensures ToUpper(CacheKey(m)[5..]) == Name(m)
    ensures forall i :: 5 <= i < |CacheKey(m)| ==> !('A' <= CacheKey(m)[i] <= 'Z')
  {
    UpperUndoesLower(Name(m));
    assert CacheKey(m)[5..] == ToLower(Name(m));
  }

  /** Distinct kinds look up distinct file names. */
  lemma CacheKeysDistinct(v: MediaMimeType, w: MediaMimeType)
    requires v != w
    ensures CacheKey(v) != CacheKey(w)
  {
    CacheKeyNamesKind(v);
    CacheKeyNamesKind(w);
  }

  /**
    So a table that gives the nine cache file names distinct MIME strings,
    and every valid kind's file name a defined string (other than the legacy
    one, except for JPG), meets the round trip's needs.
   */
  lemma InjectiveTableSuffices(p: Platform)
    requires forall v, w :: CacheKey(v) != CacheKey(w) ==> p.getMimeType(CacheKey(v)) != p.getMimeType(CacheKey(w))
    requires forall v :: IsValid(v) ==> p.isDefined(Some(p.getMimeType(CacheKey(v))))
    requires forall v :: IsValid(v) && v != JPG ==> p.getMimeType(CacheKey(v)) != Pjpeg
    ensures DistinctDefinedMimeTypes(p)
  {
    forall v, w | IsValid(v) && IsValid(w) && MimeTypeOf(p, v) == MimeTypeOf(p, w)
      ensures v == w
    {
      if v != w {
        CacheKeysDistinct(v, w);
      }
    }
  }

  /** The valid list holds every kind but ERROR, once each, in declaration order. */
  lemma AllValidsInDeclarationOrder()
    ensures forall m :: m in AllValids <==> IsValid(m)
    ensures forall i, j :: 0 <= i < j < |AllValids| ==> Ordinal(AllValids[i]) < Ordinal(AllValids[j])
    ensures AllValids == Values[..|Values| - 1] && Values[|Values| - 1] == ERROR
  {
  }

  /** The three groups are pairwise disjoint, ERROR is in none, and together they are the valid kinds. */
  lemma GroupsPartitionValids()
    ensures Photos !! Videos && Photos !! Sounds && Videos !! Sounds
    ensures ERROR !in Photos + Videos + Sounds
    ensures forall m :: m in Photos + Videos + Sounds <==> m in AllValids
  {
  }

  /** Each valid kind is in exactly one group; ERROR is in none. */
  lemma ExactlyOneGroup(m: MediaMimeType)
    ensures IsValid(m) ==>
              (if IsSupportedPhotoType(m) then 1 else 0)
              + (if IsSupportedVideoType(m) then 1 else 0)
              + (if IsSupportedSoundType(m) then 1 else 0) == 1
    ensures !IsValid(m) ==> !IsSupportedPhotoType(m) && !IsSupportedVideoType(m) && !IsSupportedSoundType(m)
  {
  }

  /** Readable photos are photos, but not every photo is readable: TIFF is not. */
  lemma ReadablePhotosStrictlyInPhotos(m: MediaMimeType)
    ensures IsReadablePhoto(m) ==> IsSupportedPhotoType(m)
    ensures IsSupportedPhotoType(m) && !IsReadablePhoto(m) <==> m == TIFF
  {
  }

  /** Previewable and readable are the same predicate. */
  lemma PreviewableIsReadable(m: MediaMimeType)
    ensures IsPreviewablePhoto(m) <==> IsReadablePhoto(m)
  {
  }

  /**
    IPTC-compliant kinds are photos; they differ from the readable ones
    exactly on TIFF (compliant, unreadable) and on PNG and BMP (readable, not compliant).
   */
  lemma IptcAgainstReadable(m: MediaMimeType)
    ensures IsIPTCCompliant(m) ==> IsSupportedPhotoType(m)
    ensures IsIPTCCompliant(m) && !IsReadablePhoto(m) <==> m == TIFF
    ensures IsReadablePhoto(m) && !IsIPTCCompliant(m) <==> m == PNG || m == BMP
  {
  }
}

=== FILE: wrappers.dfy ===
/** Optional values, standing in for Java references that may be null. */
module Wrappers {

  datatype Option<+T> = None | Some(value: T)
}
